=== FILE: README.md ===
# std-rs core in Dafny

A model of the value algebra and the sequential containers of the `std-rs` TypeScript library, plus the two integer clamps of its Rust crate:

- **Exception / Result** (`exception.dfy`, `result.dfy`): the abstract base class whose combinators all go through one `match` primitive, and the two-variant `Result` built as `{ok}` or `{err}` with its `isException` flag. A Result is the stored record (`Res = Ok | Err`) *and* the flag as separate fields. The two can disagree: `getOrInsert` on an Err stores `{ok}` but leaves the flag set. Result overrides whose bodies repeat the base-class default are modelled once, by the `Exceptions` function. Aborts (`$panic`, `throw`, the `never` callback of `expectErr`) become `Outcome.Panicked(reason)`. `structuredClone` is modelled as returning an equal value. `Option` (`maybe.dfy`) has only its two variants.
- **LinkedList** (`linked_list.dfy`): the list is its chain of payloads (`chain[0]` is the head), the `size` counter and the tail cache. The cache is `Linked` when the holder it refers to is the list's own last position: the current head holder of an empty list, or a holder whose node is the chain's last node. Otherwise it is `Detached(held)`: an empty holder that is not the current head, or a holder whose node is not the chain's last node; `held` is what that holder contains. `putBack` writes into whatever the cache refers to. The source holds the cache through a `WeakRef`; the model assumes its target is never collected. The model keeps these behaviours of the code:
  - `pushFront` never refreshes the cache, so on an empty list it strands it.
  - `popFront` never touches the cache, so popping the last node strands it too.
  - `popFront` on an empty list still installs a fresh empty head, which strands a linked cache on the old head holder. A queue that is dequeued while empty therefore loses every later `enqueue`.
  - `popFront` decrements `size` only for a truthy payload. Truthiness is a predicate parameter.
  - The iterator condition `iter && iter.next.value` never yields the last node. This carries over to `at`, so `at(-1)` is None on every well-formed list.
- **Queue** (`queue.dfy`): FIFO policy over the list. Its iterator dequeues until a call returns None or a nullish payload. Nullishness is a second predicate parameter.
- **HashMap** (`hash_map.dfy`): the Option-returning facade over an ECMAScript `Map`, modelled on a Dafny `map`. `remove` returns the boolean from `delete`, not the removed value that its doc comment shows.
- **Casts** (`casts.dfy`): `saturation_cast` and `cast_or` on 64-bit `isize`/`usize` newtypes.

Two invariants run through the list lemmas. `Wellformed` means the counter equals the chain length and the cache is linked; it is what the operations are meant to keep. `SizeCovers` means the counter never undercounts; every operation does keep it. The lemmas also state exactly when `Wellformed` is lost.

`append(other)` leaves the donor `other` with its chain and counter as they were, still sharing its nodes with the recipient; only the `prev` link of its head node is rewritten. `Append` returns only the recipient.

Assumptions about files outside this model:
- `option.ts` and the `Node` class are not part of this model.
- `new Option(x)` on a present payload is modelled as `Some(x)`, and every `Some(..)`/`new Option(..)` is assumed to be a fresh holder.
- `new Node(data, next)` is assumed to store `next` in a fresh holder.
- `None(null)` and `new Option(undefined)` are assumed to give a fresh empty holder that `putBack` can fill. This is what makes the head of a new or emptied list (`linked_list.ts:10`, `:131`) the position a linked cache refers to, and what makes the empty head that `popFront` installs on an empty list a different holder from the one the cache referred to.

## Model

| member | source | states |
|---|---|---|
| Exceptions.OrChoosesByFlag | lib/error/exception.ts:39-41 | default `or` yields `optb` exactly on a failure and `this` otherwise |
| Exceptions.OrElseLaws | lib/error/exception.ts:45-47 | `orElse(f)` keeps a success, yields `f(err)` on a failure, and with constant `f` equals `or` on tagged values |
| Exceptions.ExpectAgreesWithUnwrap | lib/error/exception.ts:54-56 | `expect(msg)` returns exactly when `unwrap` does, with the same payload, and otherwise aborts with `msg` |
| Exceptions.MapOrLaws | lib/error/exception.ts:70-81 | `mapOr(def,f)` is `f(t)` or `def`; `mapOrElse(d,f)` is `f(t)` or `d(e)`; `mapOr` is `mapOrElse` with a constant fallback |
| Exceptions.UnwrapUncheckedLaws | lib/error/exception.ts:112-114 | `unwrapUnchecked()`/`res()` is `Ok` of what `unwrap` returns or `Err` of what it aborts with, i.e. `mapOrElse(Err, Ok)`, and on tagged values an error record iff the value is a failure; the Result override (`lib/error/result/result.ts` lines 285-287) has the same body |
| Exceptions.UnwrapOrNeverFails | lib/error/exception.ts:88-90 | `unwrapOr(op)` never aborts: it is `unwrap`'s value when that succeeds and `op` otherwise, i.e. `mapOr(op, id)` |
| Exceptions.ContainsIsNotException | lib/error/exception.ts:95-97 | `contains()` is the negation of `isException`, and on tagged values says an `{ok}` record is stored |
| Exceptions.UnwrapLaws | lib/error/exception.ts:99-102 | `unwrap` returns the success payload, aborts with the error payload, and on tagged values succeeds iff `contains()` |
| Exceptions.UnwrapOrElseLaws | lib/error/exception.ts:104-106 | `unwrapOrElse(f)` is the payload or `f(e)`, i.e. `mapOrElse(f, id)` |
| Results.New | lib/error/result/result.ts:25-28 | the constructor stores the record and sets `isException` iff it is `{err}` |
| Results.ConstructorsFlag | lib/error/result/result.ts:293-313 | `Ok(x)` is a success and `Err(e)` a failure for the flag, `contains` and `containsErr`, and both are valid |
| Results.EqIgnoresVariant | lib/error/result/result.ts:47-49 | `eq` compares active payloads only: `Ok(v)` eq `Err(v)`; `Ok(v)` eq `Ok(w)` iff `v == w` |
| Results.EqIsEquivalence | lib/error/result/result.ts:47-49 | `eq` is reflexive, symmetric and transitive: an equivalence on active payloads |
| Results.AndLaws | lib/error/result/result.ts:63-65 | `and(optb)` returns `this` when Err and `optb` when Ok |
| Results.AndThenLaws | lib/error/result/result.ts:78-80 | monad laws: `Ok(x).andThen(f) == f(x)`, `Err(e).andThen(f) == Err(e)`, right identity on tagged values, associativity |
| Results.AndThenAndDisagreeAfterGetOrInsert | lib/error/result/result.ts:183-186 | after `getOrInsert` on an Err, `andThen` (record-driven) calls `f` while `and` (flag-driven) keeps `this` |
| Results.OrReturnsPayload | lib/error/result/result.ts:91-93 | Result's `or` yields `optb` on a failure and the raw Ok payload, not a Result, on a success, unlike the base default |
| Results.OrElseOnConstructors | lib/error/result/result.ts:104-106 | `Ok(x).orElse(f) == Ok(x)` and `Err(e).orElse(f) == f(e)` |
| Results.ProjectionLaws | lib/error/result/result.ts:108-114 | `ok()`/`err()` project to `Some`/`None`, exactly one of them is `Some`, and on tagged values `ok()` is `Some` iff `contains()` |
| Results.ExpectOnConstructors | lib/error/result/result.ts:128-130 | `Ok(x).expect(msg)` returns `x`; `Err(e).expect(msg)` aborts with `msg` |
| Results.ExpectErrMirrorsUnwrap | lib/error/result/result.ts:144-146 | `expectErr` returns the error exactly when `unwrap` aborts, and aborts with the payload `unwrap` would return |
| Results.ContainsComplement | lib/error/result/result.ts:151-160 | `contains()` and `containsErr()` are complements |
| Results.InsertMakesOk | lib/error/result/result.ts:170-173 | `insert(v)` leaves `Ok(v)` with the flag cleared, whatever the value was |
| Results.GetOrInsertLaws | lib/error/result/result.ts:183-186 | on Ok nothing changes and the payload is returned; on Err `{ok: v}` is stored, `v` returned, and `containsErr()` still holds |
| Results.MapLaws | lib/error/result/result.ts:193-195 | `Ok(x).map(f) == Ok(f(x))`, `Err(e).map(f) == Err(e)`, `map(id)` is the identity on tagged values, `map(f).map(g) == map(g∘f)` |
| Results.MapIsAndThenOk | lib/error/result/result.ts:193-195 | on valid values `map(f)` equals `andThen(x => Ok(f(x)))` |
| Results.MapErrLaws | lib/error/result/result.ts:202-204 | `Ok(x).mapErr(f) == Ok(x)`, `Err(e).mapErr(f) == Err(f(e))`, identity and composition laws |
| Results.MapErrLengthExample | lib/error/result/result.ts:202-204 | `Err("boom").mapErr(length) == Err(4)` and `Ok(5).mapErr(length) == Ok(5)` |
| Results.MapOrOnConstructors | lib/error/result/result.ts:211-222 | `mapOr`/`mapOrElse` are `f(x)` on `Ok(x)` and `def`/`d(e)` on `Err(e)` |
| Results.UnwrapOnConstructors | lib/error/result/result.ts:237-268 | `unwrap` returns `x` or aborts with `e`; `unwrapOr` and `unwrapOrElse` never abort |
| Results.ValidPreserved | lib/error/result/result.ts:25-28 | the invariant "an `{err}` record is flagged" survives `and`, `andThen`, `orElse`, `or` and `insert`; `or` hands back only Ok payloads |
| LinkedLists.Initial | src/collections/linear/linked_list/linked_list.ts:10-12 | a new list has no head, size 0 and the tail cache on the head: well-formed and empty |
| LinkedLists.Back | src/collections/linear/linked_list/linked_list.ts:71-73 | `back` returns the holder the tail cache refers to, modelled as the payload of its node: on a well-formed list the last payload, and None iff the list is empty |
| LinkedLists.PutBack | src/collections/linear/linked_list/linked_list.ts:49-53 | `putBack` makes the new node the back; with a linked cache it extends the chain, with a detached one it leaves the chain unchanged; size untouched |
| LinkedLists.PutBackAll | src/collections/linear/linked_list/linked_list.ts:16 | putting each argument back in turn extends a linked chain by exactly those payloads, in order |
| LinkedLists.New | src/collections/linear/linked_list/linked_list.ts:14-19 | the constructor with n arguments gives a well-formed list of those arguments in order with `size == n` |
| LinkedLists.FromArrayIsNew | src/collections/linear/linked_list/linked_list.ts:21-32 | `fromArray` builds the same list as the constructor |
| LinkedLists.Clear | src/collections/linear/linked_list/linked_list.ts:130-134 | `empty()` leaves no head, size 0, a linked cache, and `isEmpty()` true |
| LinkedLists.IsEmptyMeansNoHead | src/collections/linear/linked_list/linked_list.ts:136-138 | on a well-formed list `isEmpty()` (size 0) holds iff there is no front and no back |
| LinkedLists.PushFront | src/collections/linear/linked_list/linked_list.ts:82-85 | `pushFront(d)` makes `d` the first element, adds 1 to size, and keeps well-formedness iff the list was non-empty |
| LinkedLists.PushBack | src/collections/linear/linked_list/linked_list.ts:87-90 | `pushBack(d)` adds 1 to size and makes `d` the back; whenever the cache is linked (well-formed or not, e.g. after a falsy `popFront`) it appends `d` and keeps the cache linked; a well-formed list stays well-formed; a detached cache leaves the chain as it was |
| LinkedLists.PopFront | src/collections/linear/linked_list/linked_list.ts:110-115 | `popFront` returns the old front; the successor becomes the head; size drops only for a truthy payload; with two or more nodes the cache is untouched; on an empty list the chain stays empty, size is unchanged and the cache is left detached, on the old head holder |
| LinkedLists.Append | src/collections/linear/linked_list/linked_list.ts:117-122 | `append(other)` does nothing when `other` has no head; otherwise sizes add and the back becomes `other`'s back; whenever this list's cache is linked the chains concatenate (and the cache stays linked if `other`'s is); with a detached cache the chain is unchanged |
| LinkedLists.PushFrontAll | src/collections/linear/linked_list/linked_list.ts:82-85 | `pushFront` of each element in turn puts the elements before the old chain in reverse order and counts each of them |
| LinkedLists.Iterate | src/collections/linear/linked_list/linked_list.ts:45-47 | the iterator yields the chain in order without its last payload |
| LinkedLists.At | src/collections/linear/linked_list/linked_list.ts:152-158 | `at(i)` looks up `i + size` for negative `i` and is `Some(chain[j])` iff `0 <= j < |chain| - 1`, so never the last element |
| LinkedLists.PushFrontStrandsTail | src/collections/linear/linked_list/linked_list.ts:82-85 | after `pushFront(d)` on an empty list, `pushBack(x)` counts `x` and reports it as back, but the chain stays `[d]` |
| LinkedLists.PopLastStrandsTail | src/collections/linear/linked_list/linked_list.ts:110-115 | after popping the only node, `pushBack(x)` leaves the list headless while its back is `x` |
| LinkedLists.PopEmptyStrandsTail | src/collections/linear/linked_list/linked_list.ts:110-115 | after `popFront()` on a new list, `pushBack(x)` counts `x` and reports it as back, but the list stays headless |
| LinkedLists.PopFalsyKeepsCount | src/collections/linear/linked_list/linked_list.ts:113 | popping a falsy payload shortens the chain but not `length` |
| Queues.NewQueue | lib/collections/linear/queue.ts:8-11 | a new queue holds its arguments in order on a well-formed list |
| Queues.Enqueue | lib/collections/linear/queue.ts:29-31 | `enqueue(x)` is `pushBack(x)`: `x` becomes the back and the length grows by 1 |
| Queues.Dequeue | lib/collections/linear/queue.ts:33-35 | `dequeue()` is `popFront()`: it returns the front and removes it, and on an empty queue returns None, keeps the chain empty and the length unchanged |
| Queues.LengthAndFront | lib/collections/linear/queue.ts:17-23 | on a well-formed list, `length` is the element count and `front` is what `dequeue` would return, without removing it |
| Queues.EnqueueAll | lib/collections/linear/queue.ts:29-31 | enqueuing a sequence appends it in order to a well-formed queue and adds its length |
| Queues.DequeueN | lib/collections/linear/queue.ts:33-35 | n dequeues return the elements in order and then None, drop that prefix, and lower the length by its truthy count |
| Queues.Fifo | lib/collections/linear/queue.ts:29-35 | enqueuing `xs` on a fresh queue and dequeuing `|xs|+1` times yields `xs` in order and then None |
| Queues.DrainedLengthIsZero | lib/collections/linear/queue.ts:17-19 | with all payloads truthy, dequeuing a well-formed queue to exhaustion returns its length to 0 |
| Queues.SeededQueueExample | lib/collections/linear/queue.ts:8-35 | `Queue(1,2,3)`, `enqueue(4)`, five dequeues give `Some(1..4)` then None |
| Queues.EnqueueAfterEmptyingIsLost | lib/collections/linear/queue.ts:29-35 | after the last element is dequeued, a new `enqueue` is counted in `length` but never dequeued |
| Queues.EnqueueAfterEmptyDequeueIsLost | lib/collections/linear/queue.ts:29-35 | after a `dequeue()` on a new empty queue, a later `enqueue(x)` is counted and is the back, but `dequeue()` returns None |
| Queues.PushFrontThenPopIsLifo | src/collections/linear/linked_list/linked_list.ts:82-115 | `pushFront` of `xs` and then `|xs|` `popFront` calls return `xs` in reverse order |
| Queues.PushFrontPopExample | src/collections/linear/linked_list/linked_list.ts:82-115 | `pushFront` of 1, 2, 3 then three `popFront` calls give `Some(3)`, `Some(2)`, `Some(1)` |
| Queues.Drain | lib/collections/linear/queue.ts:13-15 | iterating consumes the queue: it yields the longest prefix without a nullish payload and removes it plus the stopping element |
| Queues.DrainYieldsAll | lib/collections/linear/queue.ts:13-15 | iterating a queue of non-nullish payloads yields all of them in order and empties it |
| HashMaps.NewContents | src/collections/hash_map/hash_map.ts:20-23 | the constructor's keys are exactly the entries' keys and a repeated key keeps its last value |
| HashMaps.Get | src/collections/hash_map/hash_map.ts:77-79 | `get(k)` is Some of the stored value iff `has(k)`, i.e. iff `k` is a key, and None otherwise |
| HashMaps.GetAfterNew | src/collections/hash_map/hash_map.ts:77-79 | `get` returns the value last given for the key at construction |
| HashMaps.Set | src/collections/hash_map/hash_map.ts:93-97 | `set(k,v)` returns the previous `get(k)`, afterwards `get(k) == Some(v)`, other keys are untouched, size grows iff `k` was new |
| HashMaps.Remove | src/collections/hash_map/hash_map.ts:121-123 | `remove(k)` returns whether `k` was present (a boolean), removes it, leaves other keys, and shrinks size iff it was present |
| HashMaps.Clear | src/collections/hash_map/hash_map.ts:135-137 | `empty()` leaves size 0 and no key |
| HashMaps.IsEmptyMeansNoKeys | src/collections/hash_map/hash_map.ts:147-149 | `isEmpty()` holds iff no key is present |
| HashMaps.ToString | src/collections/hash_map/hash_map.ts:162-168 | `toString()` is exactly `"{}"` iff the map is empty |
| HashMaps.Clone | src/collections/hash_map/hash_map.ts:247-249 | `clone()` has the same key/value entries and size |
| Casts.SaturationCast | src/lib.rs:15-21 | the result is at least `x` and is either `x` or 0 |
| Casts.CastOr | src/lib.rs:23-29 | the result is at most `or`, equals `int` iff `0 <= int <= or`, and is `int` whenever it is not `or` |
| Casts.SaturationCastIdempotent | src/lib.rs:15-21 | identity on non-negative inputs, 0 on negative ones, and idempotent |
| Casts.CastOrIdempotent | src/lib.rs:23-29 | `cast_or` with the same bound is idempotent |
| Casts.CastOrVersusSaturation | src/lib.rs:15-29 | `cast_or` agrees with `saturation_cast` inside the bound but sends negatives to `or`, not 0 |

## Left out

- `LinkedList.popBack`: its `switch` compares the head by identity with `Option.None` from `option.ts`, which is not part of this model.
- `LinkedList.appendFront`, `reverse`, `fromIter`, `fromIterRev`, `enumerate`, `rev`: these rely on `IteratorTrait` or on sharing nodes between two lists, and a value model cannot represent that sharing. Only the iteration that `at` needs is modelled.
- LinkedLists.PushBack: the model assumes the weakly referenced tail holder is never collected. In the source it can be reachable only through that weak reference: after a `popFront` that leaves exactly one node (only the discarded old head still holds it), after `pushFront` on a one-node list (the cache stays on the old head holder), and in every stranded state. After a collection `deref()` gives undefined and `pushBack` throws a TypeError at `this.tail.value`.
- LinkedLists.Append: the model assumes the weakly referenced tail holder is never collected. In the source it can be reachable only through that weak reference: after a `popFront` that leaves exactly one node (only the discarded old head still holds it), after `pushFront` on a one-node list (the cache stays on the old head holder), and in every stranded state. After a collection `deref()` gives undefined and `append` throws a TypeError at `this.tail.value`.
- LinkedLists.Back: the model assumes the weakly referenced tail holder is never collected. In the source it can be reachable only through that weak reference: after a `popFront` that leaves exactly one node (only the discarded old head still holds it), after `pushFront` on a one-node list (the cache stays on the old head holder), and in every stranded state. After a collection `deref()` gives undefined and `back` (and `Queue.back`) throws a TypeError.
- Queues.Enqueue: inherits the never-collected assumption of `pushBack`; after a `dequeue` that leaves one element and a collection, `enqueue` throws in the source.
- LinkedLists.Append: a list appended to itself (`l.append(l)`) becomes cyclic in the source, because its own head node is inserted after its own last node, and its iterator then never ends. Value semantics cannot express this; the model gives the chain concatenated with itself.
- Node sharing after `append`: the donor list keeps its nodes, and later mutations of the donor show through the recipient. The model has value semantics and does not show this.
- `LinkedList.toString`, `Queue.toString`, `Symbol.toStringTag`: string formatting. For HashMap, only the empty `"{}"` case is modelled; the rendering of a non-empty map's entries is a parameter.
- HashMap `keySet`, `entrySet`, `keys`, `values`, `valueSet`, `entries`, `fromIter`, `form`, `formRecord`, iterator: these depend on `Vec`, `HashSet` and `IteratorTrait`, and on JavaScript `Map` iteration order.
- `Exception.clone`: `structuredClone` is modelled as returning an equal value.
- `Result.unwrapOrThrow`: it aborts with a `throw` instead of a panic and is otherwise `unwrap`, so `Exceptions.Unwrap` stands for it.
- The `result` getter is `res()` under another name, which is `Exceptions.UnwrapUnchecked`.
- Option's own combinators: `option.ts` is not part of this model.
- LinkedLists.PopFront: a nullish payload is returned as `Some(v)`, whereas `new Option(null)` or `new Option(undefined)` would read back as None; nullishness is only modelled for the queue's iterator.
- LinkedLists.At: as for `popFront`, a nullish payload at the index is returned as `Some(v)` rather than None.
- Queues.Dequeue: inherits the nullish-payload simplification of `popFront`.
- Queues.QueueFront: a nullish front payload is returned as `Some(v)`.
- Queues.QueueBack: a nullish back payload is returned as `Some(v)`.
- Queues.DequeueN: each removal inherits the nullish-payload simplification of `popFront`.
- Queues.Fifo: states the order of the returned payloads as `Some(v)` even for nullish ones.
- Queues.Drain: models an iteration run to the end, as a spread or `for…of` without `break` does. The source iterator is a lazy generator that dequeues only as far as its consumer reads.
- HashMaps.Get: a stored `null`/`undefined` value would read back as None through `new Option(..)`. The model returns Some of whatever was stored.
- Results.Eq: modelled only for Results whose two payload types coincide, since comparing an Ok payload with an Err payload of another type has no Dafny counterpart.
- LinkedLists.At: indices are integers. A fractional JavaScript index never equals an enumeration position, so it would always give None.
- Casts.SaturationCast: assumes a 64-bit target for `isize`/`usize`.
- Casts.CastOr: assumes the same 64-bit target for `isize`/`usize`.
- Server, routing, thread bindings and the re-export modules are outside this core.

=== FILE: casts.dfy ===
/** The two integer clamps of src/lib.rs, on a 64-bit target. */
module Casts {

  newtype isize = x: int | -0x8000_0000_0000_0000 <= x < 0x8000_0000_0000_0000
  newtype usize = x: int | 0 <= x < 0x1_0000_0000_0000_0000

  /** `saturation_cast`: negative values become 0, the rest keep their value (every
      non-negative `isize` fits in a `usize`). */
  function SaturationCast(x: isize): (r: usize)
    ensures r as int >= x as int
    ensures r as int == x as int || r == 0
  {
    if x < 0 then 0 else x as usize
  }

  /** `cast_or(int, or)` (the parameter `int` is called `value` here): the value itself when it lies in `[0, or]`, and `or` otherwise. */
  function CastOr(value: isize, or: usize): (r: usize)
    ensures r <= or
    ensures r as int == value as int <==> 0 <= value as int <= or as int
    ensures r != or ==> r as int == value as int
  {
    if value < 0 || value as usize > or then or else value as usize
  }

  /** `saturation_cast` is the identity on non-negative inputs and idempotent. */
  lemma SaturationCastIdempotent(x: isize)
    ensures x >= 0 ==> SaturationCast(x) as int == x as int
    ensures x < 0 ==> SaturationCast(x) == 0
    ensures SaturationCast(SaturationCast(x) as int as isize) == SaturationCast(x)
  {
  }

  /** `cast_or` is idempotent for the same bound. */
  lemma CastOrIdempotent(x: isize, or: usize)
    requires or as int < 0x8000_0000_0000_0000
    ensures CastOr(CastOr(x, or) as int as isize, or) == CastOr(x, or)
  {
  }

  /** `cast_or` is not a clamp: it agrees with `saturation_cast` inside the bound, but a
      negative input goes to the upper bound, not to 0. */
  lemma CastOrVersusSaturation(x: isize, or: usize)
    ensures 0 <= x as int <= or as int ==> CastOr(x, or) == SaturationCast(x)
    ensures x < 0 ==> CastOr(x, or) == or && SaturationCast(x) == 0
    ensures x as int > or as int ==> CastOr(x, or) == or && SaturationCast(x) as int > or as int
  {
  }

}

=== FILE: exception.dfy ===
/** The abstract base class every failure-aware value extends (lib/error/exception.ts).

    The base class only knows three abstract members: `match`, which calls one of two
    handlers depending on the stored record, `res`, which returns the active payload, and
    the flag `isException`. They are modelled by the state they read: the stored record
    and the flag, kept as two separate fields because a concrete class may let them
    disagree (see Results.GetOrInsert). `clone` (a structured clone) is modelled as
    returning an equal value. */
module Exceptions {

  /** The record a value stores: `{ok}` or `{err}`. */
  datatype Res<T, E> = Ok(ok: T) | Err(err: E)

  datatype Exception<T, E> = Exception(stored: Res<T, E>, isException: bool)

  /** What a call that may abort produces: a value, or an abort carrying its reason. */
  datatype Outcome<V, P> = Returned(value: V) | Panicked(reason: P)

  /** The flag agrees with the stored record, as it does for every freshly built value. */
  predicate Tagged<T, E>(x: Exception<T, E>) {
    x.isException <==> x.stored.Err?
  }

  /** The single primitive: dispatch on which record is stored. */
  function Match<T, E, R>(x: Exception<T, E>, onOk: T -> R, onErr: E -> R): R {
    match x.stored
    case Ok(t) => onOk(t)
    case Err(e) => onErr(e)
  }

  /** `res()` and `unwrapUnchecked()`: the active payload, whichever it is. */
  function UnwrapUnchecked<T, E>(x: Exception<T, E>): Res<T, E> {
    x.stored
  }

  function Or<T, E>(x: Exception<T, E>, optb: Exception<T, E>): Exception<T, E> {
    if x.isException then optb else x
  }

  function OrElse<T, E>(x: Exception<T, E>, f: E -> Exception<T, E>): Exception<T, E> {
    Match(x, _ => x, f)
  }

  function Expect<T, E>(x: Exception<T, E>, msg: string): Outcome<T, string> {
    Match(x, t => Returned(t), _ => Panicked(msg))
  }

  function MapOr<T, E, U>(x: Exception<T, E>, def: U, f: T -> U): U {
    Match(x, f, _ => def)
  }

  function MapOrElse<T, E, U>(x: Exception<T, E>, def: E -> U, f: T -> U): U {
    Match(x, f, def)
  }

  function UnwrapOr<T, E>(x: Exception<T, E>, op: T): T {
    Match(x, t => t, _ => op)
  }

  predicate Contains<T, E>(x: Exception<T, E>) {
    !x.isException
  }

  /** `unwrap()`; `unwrapOrThrow()` aborts the same way, by a throw instead of a panic. */
  function Unwrap<T, E>(x: Exception<T, E>): Outcome<T, E> {
    Match(x, t => Returned(t), e => Panicked(e))
  }

  function UnwrapOrElse<T, E>(x: Exception<T, E>, f: E -> T): T {
    Match(x, t => t, f)
  }

  /** `or` falls back to `optb` exactly when the value is a failure, and otherwise keeps it. */
  lemma OrChoosesByFlag<T, E>(x: Exception<T, E>, optb: Exception<T, E>)
    ensures x.isException ==> Or(x, optb) == optb
    ensures !x.isException ==> Or(x, optb) == x
  {
  }

  /** `orElse` keeps a success and hands the error payload to `f` otherwise; with a
      constant `f` it is `or`, as long as the flag agrees with the record. */
  lemma OrElseLaws<T, E>(x: Exception<T, E>, f: E -> Exception<T, E>, optb: Exception<T, E>)
    ensures x.stored.Ok? ==> OrElse(x, f) == x
    ensures x.stored.Err? ==> OrElse(x, f) == f(x.stored.err)
    ensures Tagged(x) ==> OrElse(x, _ => optb) == Or(x, optb)
  {
  }

  /** `expect` returns the payload exactly when `unwrap` does; on a failure it aborts with
      the caller's message rather than the error payload. */
  lemma ExpectAgreesWithUnwrap<T, E>(x: Exception<T, E>, msg: string)
    ensures Expect(x, msg).Returned? <==> Unwrap(x).Returned?
    ensures Expect(x, msg).Returned? ==> Expect(x, msg).value == Unwrap(x).value
    ensures Expect(x, msg).Panicked? ==> Expect(x, msg).reason == msg
  {
  }

  /** `unwrap` returns the success payload and aborts with the error payload otherwise;
      on a tagged value it succeeds exactly when `contains()` holds. */
  lemma UnwrapLaws<T, E>(x: Exception<T, E>)
    ensures x.stored.Ok? ==> Unwrap(x) == Returned(x.stored.ok)
    ensures x.stored.Err? ==> Unwrap(x) == Panicked(x.stored.err)
    ensures Tagged(x) ==> (Contains(x) <==> Unwrap(x).Returned?)
  {
  }

  /** `unwrapUnchecked()` hands back the stored record without checking the flag: it is
      `Ok` of what `unwrap` returns, or `Err` of what `unwrap` aborts with, and on a tagged
      value it is an error record exactly when the value is a failure. */
  lemma UnwrapUncheckedLaws<T, E>(x: Exception<T, E>)
    ensures Unwrap(x).Returned? ==> UnwrapUnchecked(x) == Ok(Unwrap(x).value)
    ensures Unwrap(x).Panicked? ==> UnwrapUnchecked(x) == Err(Unwrap(x).reason)
    ensures UnwrapUnchecked(x) == MapOrElse(x, e => Err(e), t => Ok(t))
    ensures Tagged(x) ==> (UnwrapUnchecked(x).Err? <==> x.isException)
  {
  }

  /** `unwrapOr` never aborts: it is what `unwrap` returns when that succeeds and the
      default otherwise; it is `mapOr` with the identity. */
  lemma UnwrapOrNeverFails<T, E>(x: Exception<T, E>, op: T)
    ensures Unwrap(x).Returned? ==> UnwrapOr(x, op) == Unwrap(x).value
    ensures Unwrap(x).Panicked? ==> UnwrapOr(x, op) == op
    ensures UnwrapOr(x, op) == MapOr(x, op, t => t)
  {
  }

  /** `unwrapOrElse` is the payload on success and `f` of the error otherwise; it is
      `mapOrElse` with the identity. */
  lemma UnwrapOrElseLaws<T, E>(x: Exception<T, E>, f: E -> T)
    ensures x.stored.Ok? ==> UnwrapOrElse(x, f) == x.stored.ok
    ensures x.stored.Err? ==> UnwrapOrElse(x, f) == f(x.stored.err)
    ensures UnwrapOrElse(x, f) == MapOrElse(x, f, t => t)
  {
  }

  /** `mapOr(def, f)` is `f(t)` on success and `def` on failure: `mapOrElse` with a
      constant fallback. */
  lemma MapOrLaws<T, E, U>(x: Exception<T, E>, def: U, fallback: E -> U, f: T -> U)
    ensures x.stored.Ok? ==> MapOr(x, def, f) == f(x.stored.ok)
    ensures x.stored.Err? ==> MapOr(x, def, f) == def
    ensures x.stored.Ok? ==> MapOrElse(x, fallback, f) == f(x.stored.ok)
    ensures x.stored.Err? ==> MapOrElse(x, fallback, f) == fallback(x.stored.err)
    ensures MapOr(x, def, f) == MapOrElse(x, _ => def, f)
  {
  }

  /** `contains()` is the negation of the flag; on a tagged value, it says which record
      is stored. */
  lemma ContainsIsNotException<T, E>(x: Exception<T, E>)
    ensures Contains(x) != x.isException
    ensures Tagged(x) ==> (Contains(x) <==> x.stored.Ok?)
  {
  }

}

=== FILE: hash_map.dfy ===
/** The Option-returning facade over an ECMAScript `Map`
    (src/collections/hash_map/hash_map.ts), with the map as a Dafny `map`. */
module HashMaps {
  import opened Maybe

  datatype HashMap<K, V> = HashMap(entries: map<K, V>)

  /** No later entry has the same key as entry `i`. */
  predicate LastWithKey<K(==), V>(es: seq<(K, V)>, i: int)
    requires 0 <= i < |es|
  {
    forall j :: i < j < |es| ==> es[j].0 != es[i].0
  }

  /** The constructor `new HashMap(...entries)`, i.e. `new Map(entries)`: entries are set
      in order. */
  function New<K, V>(es: seq<(K, V)>): HashMap<K, V>
    decreases |es|
  {
    if |es| == 0 then HashMap(map[])
    else
      var (k, v) := es[|es| - 1];
      HashMap(New(es[..|es| - 1]).entries[k := v])
  }

  /** The constructed map has exactly the keys of the entries, and for a repeated key the
      last entry wins. */
  lemma {:induction false} NewContents<K(!new), V>(es: seq<(K, V)>)
    ensures forall k :: k in New(es).entries <==> exists i :: 0 <= i < |es| && es[i].0 == k
    ensures forall i :: 0 <= i < |es| && LastWithKey(es, i) ==> New(es).entries[es[i].0] == es[i].1
  {
    if |es| > 0 {
      var n := |es| - 1;
      var init := es[..n];
      NewContents(init);
      assert forall i :: 0 <= i < n ==> init[i] == es[i];
      forall k
        ensures k in New(es).entries <==> exists i :: 0 <= i < |es| && es[i].0 == k
      {
        if k == es[n].0 {
          assert es[n].0 == k;
        } else if exists i :: 0 <= i < |es| && es[i].0 == k {
          var i :| 0 <= i < |es| && es[i].0 == k;
          assert init[i].0 == k;
        }
      }
      forall i | 0 <= i < |es| && LastWithKey(es, i)
        ensures New(es).entries[es[i].0] == es[i].1
      {
        if i < n {
          assert es[n].0 != es[i].0;
          assert LastWithKey(init, i);
        }
      }
    }
  }

  function Size<K, V>(m: HashMap<K, V>): nat {
    |m.entries|
  }

  predicate IsEmpty<K, V>(m: HashMap<K, V>) {
    Size(m) == 0
  }

  predicate Has<K, V>(m: HashMap<K, V>, k: K) {
    k in m.entries
  }

  /** `get(key)`: the stored value wrapped in Some, or None for a missing key. */
  function Get<K, V>(m: HashMap<K, V>, k: K): (r: Option<V>)
    ensures r.Some? <==> Has(m, k)
    ensures r.Some? ==> r.value == m.entries[k]
  {
    if k in m.entries then Some(m.entries[k]) else None
  }

  /** `get` hands back exactly what the constructor stored last under each key. */
  lemma GetAfterNew<K(!new), V>(es: seq<(K, V)>, i: int)
    requires 0 <= i < |es| && LastWithKey(es, i)
    ensures Get(New(es), es[i].0) == Some(es[i].1)
  {
    NewContents(es);
  }

  /** `set(key, value)`: the previous `get(key)` and the updated map. */
  function Set<K(!new), V>(m: HashMap<K, V>, k: K, v: V): (r: (Option<V>, HashMap<K, V>))
    ensures r.0 == Get(m, k)
    ensures Get(r.1, k) == Some(v)
    ensures forall j :: j != k ==> Get(r.1, j) == Get(m, j)
    ensures Size(r.1) == if Has(m, k) then Size(m) else Size(m) + 1
  {
    var entries := m.entries[k := v];
    assert Has(m, k) ==> entries.Keys == m.entries.Keys;
    assert !Has(m, k) ==> entries.Keys == m.entries.Keys + {k};
    (Get(m, k), HashMap(entries))
  }

  /** `remove(key)`: what `delete` returns, whether the key was present, and not the
      removed value; afterwards the key is gone and the other keys are untouched. */
  function Remove<K(!new), V>(m: HashMap<K, V>, k: K): (r: (bool, HashMap<K, V>))
    ensures r.0 <==> Has(m, k)
    ensures !Has(r.1, k) && Get(r.1, k) == None
    ensures forall j :: j != k ==> Get(r.1, j) == Get(m, j)
    ensures Size(r.1) == if r.0 then Size(m) - 1 else Size(m)
  {
    var entries := m.entries - {k};
    assert entries.Keys == m.entries.Keys - {k};
    (k in m.entries, HashMap(entries))
  }

  /** `empty()`. */
  function Clear<K(!new), V>(m: HashMap<K, V>): (r: HashMap<K, V>)
    ensures Size(r) == 0 && IsEmpty(r)
    ensures forall k :: !Has(r, k) && Get(r, k) == None
  {
    HashMap(map[])
  }

  /** `isEmpty()` holds exactly when no key is present. */
  lemma IsEmptyMeansNoKeys<K, V>(m: HashMap<K, V>)
    ensures IsEmpty(m) <==> forall k :: !Has(m, k)
  {
    if !IsEmpty(m) {
      var k :| k in m.entries;
      assert Has(m, k);
    }
  }

  /** `clone()`: a map built from this one's entries, holding the same entries. */
  function Clone<K(!new), V>(m: HashMap<K, V>): (r: HashMap<K, V>)
    ensures forall k :: Get(r, k) == Get(m, k)
    ensures Size(r) == Size(m)
  {
    var r := HashMap(map k | k in m.entries :: m.entries[k]);
    assert r.entries == m.entries;
    r
  }

  /** `toString()`: `"{}"` for an empty map; otherwise the entries are rendered between
      braces. The rendering of the entries (`body`) is left abstract. */
  function ToString<K, V>(m: HashMap<K, V>, body: string): (r: string)
    ensures r == "{}" <==> IsEmpty(m)
  {
    if IsEmpty(m) then "{}" else "{\n\t" + body + "\n}"
  }

}

=== FILE: linked_list.dfy ===
/** The singly-linked chain with a cached tail and a separate size counter
    (src/collections/linear/linked_list/linked_list.ts).

    The list is its chain of payloads from the head (`chain[0]`) onwards, the counter
    `size`, and the tail cache. The cache refers to a holder (the head holder or some
    node's `next` holder): `putBack` inserts into the node that holder contains, or into
    the holder itself when it is empty. The cache is `Linked` when that holder is the
    list's own last position (the current head holder of an empty list, or any holder
    whose node is the chain's last node), and `Detached` otherwise: an empty holder that
    is not the current head, or one whose node is not the chain's last node. `Detached`
    remembers what that holder contains. Nothing keeps `size` equal to the chain length:
    it is a counter the operations update on their own. The source keeps the cache as a
    weak reference; the model assumes its target is never collected. */
module LinkedLists {
  import opened Maybe

  datatype Tail<T> = Linked | Detached(held: Option<T>)

  datatype LinkedList<T> = LinkedList(chain: seq<T>, size: int, tail: Tail<T>)

  /** The state every operation is meant to keep: the counter matches the chain and the
      tail cache points at its end. */
  predicate Wellformed<T>(l: LinkedList<T>) {
    l.size == |l.chain| && l.tail.Linked?
  }

  /** The weaker state every operation does keep: the counter never undercounts. */
  predicate SizeCovers<T>(l: LinkedList<T>) {
    l.size >= |l.chain|
  }

  function Last<T>(s: seq<T>): T
    requires |s| > 0
  {
    s[|s| - 1]
  }

  /** The field initialisers: no head, size 0, tail cache on the head holder. */
  function Initial<T>(): (l: LinkedList<T>)
    ensures Wellformed(l) && l.chain == []
  {
    LinkedList([], 0, Linked)
  }

  /** `front`: the head holder; modelled as the payload of the node it contains. */
  function Front<T>(l: LinkedList<T>): Option<T> {
    if |l.chain| == 0 then None else Some(l.chain[0])
  }

  /** `back`: the holder the tail cache refers to; modelled as the payload of the node
      it contains. */
  function Back<T>(l: LinkedList<T>): (r: Option<T>)
    ensures Wellformed(l) ==> (r.Some? <==> |l.chain| > 0)
    ensures Wellformed(l) && |l.chain| > 0 ==> r == Some(l.chain[|l.chain| - 1])
  {
    match l.tail
    case Linked => if |l.chain| == 0 then None else Some(Last(l.chain))
    case Detached(held) => held
  }

  /** `putBack(node)`: links a node behind the cached tail and moves the cache onto it.
      The counter is not touched. A detached cache takes the node away from the chain. */
  function PutBack<T>(l: LinkedList<T>, d: T): (r: LinkedList<T>)
    ensures r.size == l.size
    ensures Back(r) == Some(d)
    ensures l.tail.Linked? ==> r.chain == l.chain + [d] && r.tail.Linked?
    ensures l.tail.Detached? ==> r.chain == l.chain && r.tail.Detached?
  {
    match l.tail
    case Linked => l.(chain := l.chain + [d])
    case Detached(_) => l.(tail := Detached(Some(d)))
  }

  /** `putBack` applied to each payload in turn. */
  function PutBackAll<T>(l: LinkedList<T>, xs: seq<T>): (r: LinkedList<T>)
    ensures r.size == l.size
    ensures l.tail.Linked? ==> r.chain == l.chain + xs && r.tail.Linked?
    decreases |xs|
  {
    if |xs| == 0 then l
    else
      var r := PutBackAll(PutBack(l, xs[0]), xs[1..]);
      assert l.tail.Linked? ==> r.chain == l.chain + [xs[0]] + xs[1..];
      assert [xs[0]] + xs[1..] == xs;
      r
  }

  /** The constructor `new LinkedList(...nodes)`: each argument is put at the back, then
      the counter is set to the number of arguments. */
  function New<T>(xs: seq<T>): (l: LinkedList<T>)
    ensures Wellformed(l)
    ensures l.chain == xs && l.size == |xs|
    ensures Front(l) == (if |xs| == 0 then None else Some(xs[0]))
  {
    PutBackAll(Initial(), xs).(size := |xs|)
  }

  /** `fromArray(arr)`: writes each payload straight into successive holders, leaves the
      tail cache on the last one and sets the counter. */
  function FromArray<T>(xs: seq<T>): LinkedList<T> {
    LinkedList(xs, |xs|, Linked)
  }

  /** Building by `fromArray` and by the constructor gives the same list. */
  lemma FromArrayIsNew<T>(xs: seq<T>)
    ensures FromArray(xs) == New(xs)
  {
  }

  /** `length`. */
  function Length<T>(l: LinkedList<T>): int {
    l.size
  }

  /** `isEmpty()`: the counter is zero. */
  predicate IsEmpty<T>(l: LinkedList<T>) {
    l.size == 0
  }

  /** `empty()`: a fresh head, the tail cache back on it, counter zero. */
  function Clear<T>(l: LinkedList<T>): (r: LinkedList<T>)
    ensures r.chain == [] && IsEmpty(r) && Length(r) == 0
    ensures Wellformed(r) && Front(r) == None && Back(r) == None
  {
    Initial()
  }

  /** On a well-formed list `isEmpty()` says the chain is empty; otherwise the counter
      and the chain can disagree. */
  lemma IsEmptyMeansNoHead<T>(l: LinkedList<T>)
    requires Wellformed(l)
    ensures IsEmpty(l) <==> Front(l) == None
    ensures IsEmpty(l) <==> Back(l) == None
  {
  }

  /** `pushFront(data)`: a new head whose successor is the old head. The tail cache is
      not refreshed, so on an empty list it stays on the old head holder, which the new
      head does not reach. */
  function PushFront<T>(l: LinkedList<T>, d: T): (r: LinkedList<T>)
    ensures r.chain == [d] + l.chain
    ensures r.size == l.size + 1
    ensures Front(r) == Some(d)
    ensures Wellformed(l) ==> (Wellformed(r) <==> |l.chain| > 0)
    ensures |l.chain| > 0 ==> Back(r) == Back(l)
    ensures SizeCovers(l) ==> SizeCovers(r)
  {
    LinkedList([d] + l.chain, l.size + 1,
               if |l.chain| == 0 && l.tail.Linked? then Detached(None) else l.tail)
  }

  /** `pushBack(data)`: `putBack` of a new node, counter up by one. */
  function PushBack<T>(l: LinkedList<T>, d: T): (r: LinkedList<T>)
    ensures r.size == l.size + 1
    ensures Back(r) == Some(d)
    ensures |l.chain| > 0 ==> Front(r) == Front(l)
    ensures l.tail.Linked? ==> r.chain == l.chain + [d] && r.tail.Linked?
    ensures Wellformed(l) ==> Wellformed(r)
    ensures l.tail.Detached? ==> r.chain == l.chain
    ensures SizeCovers(l) ==> SizeCovers(r)
  {
    PutBack(l, d).(size := l.size + 1)
  }

  /** The reversal of a sequence: element `i` is the `i`-th from the end. */
  function Reverse<T>(xs: seq<T>): (r: seq<T>)
    ensures |r| == |xs|
    ensures forall i :: 0 <= i < |xs| ==> r[i] == xs[|xs| - 1 - i]
  {
    if |xs| == 0 then [] else Reverse(xs[1..]) + [xs[0]]
  }

  /** `pushFront` of each element of `xs` in turn: the list then starts with `xs`
      reversed, followed by the old chain, and counts `|xs|` more. */
  function PushFrontAll<T>(l: LinkedList<T>, xs: seq<T>): (r: LinkedList<T>)
    ensures r.chain == Reverse(xs) + l.chain
    ensures r.size == l.size + |xs|
    decreases |xs|
  {
    if |xs| == 0 then l
    else
      var r := PushFrontAll(PushFront(l, xs[0]), xs[1..]);
      assert Reverse(xs[1..]) + ([xs[0]] + l.chain) == Reverse(xs) + l.chain;
      r
  }

  /** `popFront()`: the head's payload, if any, and the list with the head advanced. The
      counter goes down only when the removed payload is truthy. The head is always
      replaced by a fresh holder and the tail cache is not touched: popping the only node
      leaves the cache on a holder of that removed node, and popping an empty list leaves
      it on the old, now unreachable, empty head holder. */
  function PopFront<T>(l: LinkedList<T>, truthy: T -> bool): (r: (Option<T>, LinkedList<T>))
    ensures r.0 == Front(l)
    ensures |l.chain| == 0 ==> r.1.chain == [] && r.1.size == l.size && r.1.tail.Detached?
    ensures |l.chain| == 0 ==> Back(r.1) == Back(l)
    ensures |l.chain| > 0 ==> r.1.chain == l.chain[1..]
    ensures |l.chain| >= 2 ==> r.1.tail == l.tail
    ensures |l.chain| > 0 ==> r.1.size == (if truthy(l.chain[0]) then l.size - 1 else l.size)
    ensures Wellformed(l) && |l.chain| >= 2 && truthy(l.chain[0]) ==> Wellformed(r.1)
    ensures Wellformed(l) && |l.chain| <= 1 ==> !Wellformed(r.1) && Back(r.1) == Back(l)
    ensures SizeCovers(l) ==> SizeCovers(r.1)
  {
    if |l.chain| == 0 then
      (None, l.(tail := if l.tail.Linked? then Detached(None) else l.tail))
    else
      var d := l.chain[0];
      var tail := if |l.chain| == 1 && l.tail.Linked? then Detached(Some(d)) else l.tail;
      (Some(d), LinkedList(l.chain[1..], if truthy(d) then l.size - 1 else l.size, tail))
  }

  /** `append(other)`: nothing when `other` has no head; otherwise `other`'s head node
      is put behind this list's tail, the tail cache is taken over from `other`, and the
      counters are added. `other` itself is left as it was. */
  function Append<T>(l: LinkedList<T>, other: LinkedList<T>): (r: LinkedList<T>)
    ensures |other.chain| == 0 ==> r == l
    ensures |other.chain| > 0 ==> r.size == l.size + other.size
    ensures |other.chain| > 0 ==> Back(r) == Back(other)
    ensures l.tail.Linked? ==> r.chain == l.chain + other.chain
    ensures l.tail.Linked? && other.tail.Linked? ==> r.tail.Linked?
    ensures Wellformed(l) && Wellformed(other) ==> Wellformed(r)
    ensures l.tail.Detached? ==> r.chain == l.chain
    ensures SizeCovers(l) && SizeCovers(other) ==> SizeCovers(r)
  {
    if |other.chain| == 0 then l
    else
      var chain := if l.tail.Linked? then l.chain + other.chain else l.chain;
      var tail :=
        match other.tail
        case Linked => if l.tail.Linked? then Linked else Detached(Some(Last(other.chain)))
        case Detached(held) => Detached(held);
      LinkedList(chain, l.size + other.size, tail)
  }

  /** The iterator: it walks from the head while the current node has a successor, so
      it yields every payload but the last. */
  method Iterate<T>(l: LinkedList<T>) returns (items: seq<T>)
    ensures |items| == if |l.chain| == 0 then 0 else |l.chain| - 1
    ensures forall i :: 0 <= i < |items| ==> items[i] == l.chain[i]
  {
    items := [];
    var node := 0;
    while node < |l.chain| && node + 1 < |l.chain|
      invariant 0 <= node <= |l.chain|
      invariant |l.chain| > 0 ==> node <= |l.chain| - 1
      invariant items == l.chain[..node]
    {
      items := items + [l.chain[node]];
      node := node + 1;
    }
  }

  /** `at(index)`: a negative index is first shifted by the counter; then the payloads
      the iterator yields are enumerated from 0 and the one at that position returned. */
  method At<T>(l: LinkedList<T>, index: int) returns (r: Option<T>)
    ensures var j := if index < 0 then index + l.size else index;
      && (r.Some? <==> 0 <= j < |l.chain| - 1)
      && (r.Some? ==> r.value == l.chain[j])
  {
    var target := if index < 0 then index + l.size else index;
    var items := Iterate(l);
    var i := 0;
    while i < |items|
      invariant 0 <= i <= |items|
      invariant target < 0 || target >= i
    {
      if i == target {
        return Some(items[i]);
      }
      i := i + 1;
    }
    return None;
  }

  /** On an empty list `pushFront` strands the tail cache, so a following `pushBack`
      counts its payload and reports it as the back, but the head does not reach it. */
  lemma PushFrontStrandsTail<T>(d: T, x: T)
    ensures var l := PushBack(PushFront(Initial(), d), x);
      l.chain == [d] && l.size == 2 && Front(l) == Some(d) && Back(l) == Some(x)
  {
  }

  /** Popping the only node leaves the tail cache on it, so a following `pushBack` links
      behind the removed node: the list stays headless though its counter grows. */
  lemma PopLastStrandsTail<T>(d: T, x: T, truthy: T -> bool)
    ensures var l := PushBack(PopFront(New([d]), truthy).1, x);
      l.chain == [] && Front(l) == None && Back(l) == Some(x)
      && l.size == (if truthy(d) then 1 else 2)
  {
  }

  /** Popping an empty list strands the tail cache on its old head holder, so a following
      `pushBack` is counted and reported as the back, but the head does not reach it. */
  lemma PopEmptyStrandsTail<T>(x: T, truthy: T -> bool)
    ensures var l := PushBack(PopFront(Initial(), truthy).1, x);
      l.chain == [] && Front(l) == None && Back(l) == Some(x) && l.size == 1
  {
  }

  /** A falsy payload is removed without the counter going down. */
  lemma PopFalsyKeepsCount<T>(l: LinkedList<T>, truthy: T -> bool)
    requires |l.chain| > 0 && !truthy(l.chain[0])
    ensures Length(PopFront(l, truthy).1) == Length(l)
    ensures |PopFront(l, truthy).1.chain| == |l.chain| - 1
  {
  }

}

=== FILE: maybe.dfy ===
/** The Some/None container that lookups and projections return.
    Only the two variants are modelled; its own combinators are not part of this model. */
module Maybe {

  datatype Option<T> = None | Some(value: T)

}

=== FILE: queue.dfy ===
/** The FIFO queue over a linked list (lib/collections/linear/queue.ts): `enqueue` is
    the list's `pushBack` and `dequeue` its `popFront`. */
module Queues {
  import opened Maybe
  import opened LinkedLists

  datatype Queue<T> = Queue(list: LinkedList<T>)

  /** The constructor `new Queue(...queue)`, which builds its list by `fromArray`. */
  function NewQueue<T>(xs: seq<T>): (q: Queue<T>)
    ensures Wellformed(q.list) && q.list.chain == xs
  {
    Queue(FromArray(xs))
  }

  /** `length`. */
  function QueueLength<T>(q: Queue<T>): int {
    Length(q.list)
  }

  /** `front`. */
  function QueueFront<T>(q: Queue<T>): Option<T> {
    Front(q.list)
  }

  /** `back`. */
  function QueueBack<T>(q: Queue<T>): Option<T> {
    Back(q.list)
  }

  function Enqueue<T>(q: Queue<T>, x: T): (r: Queue<T>)
    ensures r.list == PushBack(q.list, x)
    ensures QueueBack(r) == Some(x) && QueueLength(r) == QueueLength(q) + 1
  {
    Queue(PushBack(q.list, x))
  }

  function Dequeue<T>(q: Queue<T>, truthy: T -> bool): (r: (Option<T>, Queue<T>))
    ensures (r.0, r.1.list) == PopFront(q.list, truthy)
    ensures r.0 == QueueFront(q)
    ensures |q.list.chain| > 0 ==> r.1.list.chain == q.list.chain[1..]
    ensures |q.list.chain| == 0 ==> r.0 == None && r.1.list.chain == [] && QueueLength(r.1) == QueueLength(q)
  {
    var (o, l) := PopFront(q.list, truthy);
    (o, Queue(l))
  }

  /** A queue reports its length as the number of its elements while its list is
      well-formed, and `front` does not remove anything. */
  lemma LengthAndFront<T>(q: Queue<T>)
    requires Wellformed(q.list)
    ensures QueueLength(q) == |q.list.chain|
    ensures QueueFront(q) == Dequeue(q, _ => true).0
    ensures QueueFront(q).Some? <==> QueueLength(q) > 0
  {
  }

  /** Enqueues each element in turn. */
  function EnqueueAll<T>(q: Queue<T>, xs: seq<T>): (r: Queue<T>)
    ensures QueueLength(r) == QueueLength(q) + |xs|
    ensures Wellformed(q.list) ==> Wellformed(r.list) && r.list.chain == q.list.chain + xs
    decreases |xs|
  {
    if |xs| == 0 then q
    else
      var r := EnqueueAll(Enqueue(q, xs[0]), xs[1..]);
      assert [xs[0]] + xs[1..] == xs;
      assert Wellformed(q.list) ==> r.list.chain == q.list.chain + [xs[0]] + xs[1..];
      r
  }

  function Min(a: int, b: int): int {
    if a <= b then a else b
  }

  /** How many of the payloads are truthy. */
  function CountTruthy<T>(s: seq<T>, truthy: T -> bool): (n: nat)
    ensures n <= |s|
  {
    if |s| == 0 then 0 else (if truthy(s[0]) then 1 else 0) + CountTruthy(s[1..], truthy)
  }

  lemma {:induction false} CountAllTruthy<T>(s: seq<T>, truthy: T -> bool)
    requires forall i :: 0 <= i < |s| ==> truthy(s[i])
    ensures CountTruthy(s, truthy) == |s|
  {
    if |s| > 0 {
      CountAllTruthy(s[1..], truthy);
    }
  }

  /** One removal followed by `n - 1` more: if `rest` lists what the later removals
      returned from `c1`, the chain left after the first, then `[o] + rest` lists what
      all `n` returned from `c`. */
  lemma {:induction false} OutsStep<T>(c: seq<T>, c1: seq<T>, o: Option<T>, rest: seq<Option<T>>, n: nat)
    requires n > 0 && |rest| == n - 1
    requires |c| == 0 ==> o == None && c1 == []
    requires |c| > 0 ==> o == Some(c[0]) && c1 == c[1..]
    requires forall i :: 0 <= i < Min(n - 1, |c1|) ==> rest[i] == Some(c1[i])
    requires forall i :: Min(n - 1, |c1|) <= i < n - 1 ==> rest[i] == None
    ensures forall i :: 0 <= i < Min(n, |c|) ==> ([o] + rest)[i] == Some(c[i])
    ensures forall i :: Min(n, |c|) <= i < n ==> ([o] + rest)[i] == None
    ensures c1 == c[Min(1, |c|)..]
    ensures |c| > 0 ==> c[..Min(n, |c|)] == [c[0]] + c1[..Min(n - 1, |c1|)]
  {
    var outs := [o] + rest;
    forall i | 0 <= i < Min(n, |c|)
      ensures outs[i] == Some(c[i])
    {
      if i > 0 {
        assert outs[i] == rest[i - 1];
      }
    }
    forall i | Min(n, |c|) <= i < n
      ensures outs[i] == None
    {
      if i > 0 {
        assert outs[i] == rest[i - 1];
      }
    }
  }

  /** `dequeue()` called `n` times: what each call returned, and the queue afterwards. */
  function DequeueN<T>(q: Queue<T>, truthy: T -> bool, n: nat): (r: (seq<Option<T>>, Queue<T>))
    ensures |r.0| == n
    ensures forall i :: 0 <= i < Min(n, |q.list.chain|) ==> r.0[i] == Some(q.list.chain[i])
    ensures forall i :: Min(n, |q.list.chain|) <= i < n ==> r.0[i] == None
    ensures r.1.list.chain == q.list.chain[Min(n, |q.list.chain|)..]
    ensures QueueLength(r.1) == QueueLength(q) - CountTruthy(q.list.chain[..Min(n, |q.list.chain|)], truthy)
    decreases n
  {
    if n == 0 then ([], q)
    else
      var c := q.list.chain;
      var (o, q1) := Dequeue(q, truthy);
      var (rest, q2) := DequeueN(q1, truthy, n - 1);
      OutsStep(c, q1.list.chain, o, rest, n);
      ([o] + rest, q2)
  }

  /** FIFO: enqueuing `xs` on a fresh queue and dequeuing once more than its length
      returns every element in insertion order and then None, leaving nothing behind. */
  lemma Fifo<T>(xs: seq<T>, truthy: T -> bool)
    ensures var r := DequeueN(EnqueueAll(NewQueue([]), xs), truthy, |xs| + 1);
      && (forall i :: 0 <= i < |xs| ==> r.0[i] == Some(xs[i]))
      && r.0[|xs|] == None
      && r.1.list.chain == []
  {
    var q := EnqueueAll(NewQueue([]), xs);
    assert q.list.chain == xs;
  }

  /** When every payload is truthy, dequeuing a well-formed queue to exhaustion brings
      its length back to zero, and it is then empty. */
  lemma {:induction false} DrainedLengthIsZero<T>(q: Queue<T>, truthy: T -> bool)
    requires Wellformed(q.list)
    requires forall i :: 0 <= i < |q.list.chain| ==> truthy(q.list.chain[i])
    ensures var r := DequeueN(q, truthy, |q.list.chain|);
      QueueLength(r.1) == 0 && r.1.list.chain == [] && IsEmpty(r.1.list)
  {
    var c := q.list.chain;
    assert c[..Min(|c|, |c|)] == c;
    CountAllTruthy(c, truthy);
  }

  /** `new Queue(1, 2, 3)`, `enqueue(4)`, then five `dequeue()` calls return
      Some(1), Some(2), Some(3), Some(4) and None. */
  lemma SeededQueueExample()
    ensures DequeueN(Enqueue(NewQueue([1, 2, 3]), 4), x => x != 0, 5).0
      == [Some(1), Some(2), Some(3), Some(4), None]
  {
    var q := Enqueue(NewQueue([1, 2, 3]), 4);
    assert q.list.chain == [1, 2, 3, 4];
    var outs := DequeueN(q, x => x != 0, 5).0;
    assert Min(5, |q.list.chain|) == 4;
    assert outs[0] == Some(1) && outs[1] == Some(2) && outs[2] == Some(3);
    assert outs[3] == Some(4) && outs[4] == None;
  }

  /** Once the last element has been dequeued the tail cache is stranded: a later
      `enqueue` is counted but never dequeued. */
  lemma EnqueueAfterEmptyingIsLost<T>(a: T, b: T, truthy: T -> bool)
    ensures var q := Enqueue(Dequeue(NewQueue([a]), truthy).1, b);
      Dequeue(q, truthy).0 == None && QueueBack(q) == Some(b)
      && QueueLength(q) == (if truthy(a) then 1 else 2)
  {
  }

  /** A `dequeue` on an empty queue strands the tail cache, so every later `enqueue` is
      counted but never dequeued. */
  lemma EnqueueAfterEmptyDequeueIsLost<T>(x: T, truthy: T -> bool)
    ensures var q := Enqueue(Dequeue(NewQueue([]), truthy).1, x);
      Dequeue(q, truthy).0 == None && QueueBack(q) == Some(x) && QueueLength(q) == 1
  {
  }

  /** `pushFront` of `xs` one by one and then `|xs|` removals from the front give `xs`
      back in reverse order, even though the first `pushFront` strands the tail cache. */
  lemma {:induction false} PushFrontThenPopIsLifo<T>(xs: seq<T>, truthy: T -> bool)
    ensures var outs := DequeueN(Queue(PushFrontAll(Initial(), xs)), truthy, |xs|).0;
      |outs| == |xs| && forall i :: 0 <= i < |xs| ==> outs[i] == Some(xs[|xs| - 1 - i])
  {
    var q := Queue(PushFrontAll(Initial(), xs));
    assert q.list.chain == Reverse(xs);
  }

  /** Pushing 1, 2, 3 at the front and popping three times yields 3, 2, 1. */
  lemma PushFrontPopExample()
    ensures DequeueN(Queue(PushFrontAll(Initial(), [1, 2, 3])), x => x != 0, 3).0
      == [Some(3), Some(2), Some(1)]
  {
    PushFrontThenPopIsLifo([1, 2, 3], x => x != 0);
  }

  /** The queue's iterator: dequeues until a call returns None or a nullish payload
      (the terminating call also dequeues). Returns what was yielded and the queue left. */
  function Drain<T>(q: Queue<T>, truthy: T -> bool, nullish: T -> bool): (r: (seq<T>, Queue<T>))
    ensures |r.0| <= |q.list.chain|
    ensures forall i :: 0 <= i < |r.0| ==> r.0[i] == q.list.chain[i] && !nullish(r.0[i])
    ensures |r.0| < |q.list.chain| ==> nullish(q.list.chain[|r.0|])
    ensures r.1.list.chain == q.list.chain[Min(|r.0| + 1, |q.list.chain|)..]
    decreases |q.list.chain|
  {
    var (o, q1) := Dequeue(q, truthy);
    match o
    case None => ([], q1)
    case Some(v) =>
      assert v == q.list.chain[0] && q1.list.chain == q.list.chain[1..];
      if nullish(v) then ([], q1)
      else
        var (rest, q2) := Drain(q1, truthy, nullish);
        ([v] + rest, q2)
  }

  /** Iterating a queue whose payloads are all non-nullish yields them all in order and
      leaves it with no elements. */
  lemma DrainYieldsAll<T>(xs: seq<T>, truthy: T -> bool, nullish: T -> bool)
    requires forall i :: 0 <= i < |xs| ==> !nullish(xs[i])
    ensures Drain(NewQueue(xs), truthy, nullish).0 == xs
    ensures Drain(NewQueue(xs), truthy, nullish).1.list.chain == []
  {
  }

}

=== FILE: result.dfy ===
/** The concrete two-variant Result (lib/error/result/result.ts).

    A Result stores a record `{ok}` or `{err}` and a flag `isException`, computed once by
    the constructor from which record was given and afterwards written only by `insert`.
    The overrides whose bodies repeat the base-class default (`orElse`, `expect`, `mapOr`,
    `mapOrElse`, `unwrap`, `unwrapOr`, `unwrapOrElse`, `unwrapOrThrow`, `unwrapUnchecked`,
    `contains`) are the Exceptions functions themselves; only what differs or is new is
    defined here. */
module Results {
  import opened Maybe
  import opened Exceptions

  type Result<T, E> = Exception<T, E>

  /** The constructor: the flag records whether the `{err}` record was given. */
  function New<T, E>(stored: Res<T, E>): (r: Result<T, E>)
    ensures r.stored == stored
    ensures Tagged(r)
  {
    Exception(stored, stored.Err?)
  }

  function MakeOk<T, E>(x: T): Result<T, E> {
    New(Ok(x))
  }

  function MakeErr<T, E>(e: E): Result<T, E> {
    New(Err(e))
  }

  /** Every reachable Result: an `{err}` record is always flagged. The converse can fail
      after `getOrInsert` on an Err, which stores `{ok}` but keeps the flag set. */
  predicate Valid<T, E>(r: Result<T, E>) {
    r.stored.Err? ==> r.isException
  }

  /** The active payload, when both payload types coincide. */
  function Active<V>(r: Result<V, V>): V {
    match r.stored
    case Ok(v) => v
    case Err(v) => v
  }

  /** `eq(rhs)` for a Result operand: only the active payloads are compared. */
  predicate Eq<V(==)>(a: Result<V, V>, b: Result<V, V>) {
    Active(a) == Active(b)
  }

  /** `eq(rhs)` for a bare payload operand. */
  predicate EqPayload<V(==)>(a: Result<V, V>, rhs: V) {
    Active(a) == rhs
  }

  function And<T, E>(r: Result<T, E>, optb: Result<T, E>): Result<T, E> {
    if r.isException then r else optb
  }

  function AndThen<T, E>(r: Result<T, E>, f: T -> Result<T, E>): Result<T, E> {
    Match(r, f, _ => r)
  }

  /** What `or` hands back: the fallback Result, or the raw payload of `this`. */
  datatype OrValue<T, E> = Fallback(optb: Result<T, E>) | Unwrapped(payload: Res<T, E>)

  /** Result's `or` override: on a success it returns `res()`, not a copy of the Result. */
  function Or<T, E>(r: Result<T, E>, optb: Result<T, E>): OrValue<T, E> {
    if r.isException then Fallback(optb) else Unwrapped(UnwrapUnchecked(r))
  }

  /** `ok()`. */
  function OkOption<T, E>(r: Result<T, E>): Option<T> {
    Match(r, t => Some(t), _ => None)
  }

  /** `err()`. */
  function ErrOption<T, E>(r: Result<T, E>): Option<E> {
    Match(r, _ => None, e => Some(e))
  }

  /** `expectErr(callback)`: the callback never returns, so an Ok aborts with the payload
      it was handed. */
  function ExpectErr<T, E>(r: Result<T, E>): Outcome<E, T> {
    Match(r, t => Panicked(t), e => Returned(e))
  }

  predicate ContainsErr<T, E>(r: Result<T, E>) {
    r.isException
  }

  /** `insert(ok)`: the new state of the Result. */
  function Insert<T, E>(r: Result<T, E>, v: T): Result<T, E> {
    Exception(Ok(v), false)
  }

  /** `getOrInsert(ok)`: the new state of the Result and the value returned. Only the
      record is rewritten; the flag is left as it was. */
  function GetOrInsert<T, E>(r: Result<T, E>, v: T): (Result<T, E>, T)
    requires Valid(r)
  {
    if r.isException then (Exception(Ok(v), true), v) else (r, r.stored.ok)
  }

  function Map<T, E, U>(r: Result<T, E>, f: T -> U): Result<U, E> {
    Match(r, t => MakeOk(f(t)), e => MakeErr(e))
  }

  function MapErr<T, E, F>(r: Result<T, E>, f: E -> F): Result<T, F> {
    Match(r, t => MakeOk(t), e => MakeErr(f(e)))
  }

  /** `Ok(x)` is a success and `Err(e)` a failure, for the flag, for `contains` and for
      `containsErr`. */
  lemma ConstructorsFlag<T, E>(x: T, e: E)
    ensures !MakeOk<T, E>(x).isException && Contains(MakeOk<T, E>(x))
    ensures MakeErr<T, E>(e).isException && ContainsErr(MakeErr<T, E>(e))
    ensures Valid(MakeOk<T, E>(x)) && Valid(MakeErr<T, E>(e))
    ensures UnwrapUnchecked(MakeOk<T, E>(x)) == Ok(x) && UnwrapUnchecked(MakeErr<T, E>(e)) == Err(e)
  {
  }

  /** `contains()` and `containsErr()` are complements on every Result. */
  lemma ContainsComplement<T, E>(r: Result<T, E>)
    ensures Contains(r) <==> !ContainsErr(r)
  {
  }

  /** `eq` ignores which variant is active. */
  lemma EqIgnoresVariant<V>(v: V, w: V)
    ensures Eq(MakeOk<V, V>(v), MakeErr<V, V>(v))
    ensures Eq(MakeOk<V, V>(v), MakeOk<V, V>(w)) <==> v == w
    ensures EqPayload(MakeErr<V, V>(v), w) <==> v == w
  {
  }

  /** `eq` is reflexive, symmetric and transitive. */
  lemma EqIsEquivalence<V>(a: Result<V, V>, b: Result<V, V>, c: Result<V, V>)
    ensures Eq(a, a)
    ensures Eq(a, b) <==> Eq(b, a)
    ensures Eq(a, b) && Eq(b, c) ==> Eq(a, c)
  {
  }

  /** `and(optb)` keeps a failure and otherwise yields `optb`. */
  lemma AndLaws<T, E>(r: Result<T, E>, optb: Result<T, E>, x: T, e: E)
    ensures And(MakeErr(e), optb) == MakeErr(e)
    ensures And(MakeOk(x), optb) == optb
    ensures ContainsErr(r) ==> And(r, optb) == r
    ensures Contains(r) ==> And(r, optb) == optb
  {
  }

  /** The monad laws of `andThen`, with `Ok` as unit. Right identity needs a tagged
      value: on the state `getOrInsert` leaves behind it clears the flag. */
  lemma AndThenLaws<T, E>(r: Result<T, E>, x: T, e: E, f: T -> Result<T, E>, g: T -> Result<T, E>)
    ensures AndThen(MakeOk(x), f) == f(x)
    ensures AndThen(MakeErr(e), f) == MakeErr(e)
    ensures Tagged(r) ==> AndThen(r, t => MakeOk(t)) == r
    ensures AndThen(AndThen(r, f), g) == AndThen(r, t => AndThen(f(t), g))
  {
  }

  /** `andThen` consults the record while `and` consults the flag, so on a flagged `{ok}`
      record the two disagree. */
  lemma AndThenAndDisagreeAfterGetOrInsert<T, E>(e: E, v: T, optb: Result<T, E>, f: T -> Result<T, E>)
    ensures var r := GetOrInsert(MakeErr(e), v).0;
      AndThen(r, f) == f(v) && And(r, optb) == r
  {
  }

  /** Result's `or`: the fallback on a failure, the bare payload (not a Result) on a
      success, where the base-class default returns a copy of the Result itself. */
  lemma OrReturnsPayload<T, E>(r: Result<T, E>, optb: Result<T, E>)
    requires Valid(r)
    ensures ContainsErr(r) ==> Or(r, optb) == Fallback(optb) && Exceptions.Or(r, optb) == optb
    ensures Contains(r) ==> Or(r, optb) == Unwrapped(Ok(r.stored.ok)) && Exceptions.Or(r, optb) == r
  {
  }

  /** `orElse(f)` keeps an `Ok` and replaces an `Err(e)` by `f(e)`. */
  lemma OrElseOnConstructors<T, E>(x: T, e: E, f: E -> Result<T, E>)
    ensures OrElse(MakeOk(x), f) == MakeOk(x)
    ensures OrElse(MakeErr(e), f) == f(e)
  {
  }

  /** `ok()` and `err()` project onto Option, and exactly one of them is `Some`. */
  lemma ProjectionLaws<T, E>(r: Result<T, E>, x: T, e: E)
    ensures OkOption(MakeOk<T, E>(x)) == Some(x) && ErrOption(MakeOk<T, E>(x)) == None
    ensures OkOption(MakeErr<T, E>(e)) == None && ErrOption(MakeErr<T, E>(e)) == Some(e)
    ensures OkOption(r).Some? != ErrOption(r).Some?
    ensures Tagged(r) ==> (OkOption(r).Some? <==> Contains(r))
  {
  }

  /** `expect(msg)` returns an Ok payload and aborts with `msg` on an Err. */
  lemma ExpectOnConstructors<T, E>(x: T, e: E, msg: string)
    ensures Expect(MakeOk<T, E>(x), msg) == Returned(x)
    ensures Expect(MakeErr<T, E>(e), msg) == Panicked(msg)
  {
  }

  /** `unwrap`, `unwrapOr` and `unwrapOrElse` on the two constructors. */
  lemma UnwrapOnConstructors<T, E>(x: T, e: E, op: T, f: E -> T)
    ensures Unwrap(MakeOk<T, E>(x)) == Returned(x) && Unwrap(MakeErr<T, E>(e)) == Panicked(e)
    ensures UnwrapOr(MakeOk<T, E>(x), op) == x && UnwrapOr(MakeErr<T, E>(e), op) == op
    ensures UnwrapOrElse(MakeOk<T, E>(x), f) == x && UnwrapOrElse(MakeErr<T, E>(e), f) == f(e)
  {
  }

  /** `expectErr` is the mirror of `unwrap`: it returns the error and aborts on a success. */
  lemma ExpectErrMirrorsUnwrap<T, E>(r: Result<T, E>)
    ensures ExpectErr(r).Returned? <==> Unwrap(r).Panicked?
    ensures ExpectErr(r).Returned? ==> ExpectErr(r).value == Unwrap(r).reason
    ensures ExpectErr(r).Panicked? ==> ExpectErr(r).reason == Unwrap(r).value
  {
  }

  /** `insert(v)` leaves `Ok(v)` with the flag cleared, whatever the Result was. */
  lemma InsertMakesOk<T, E>(r: Result<T, E>, v: T)
    ensures Insert(r, v) == MakeOk(v)
    ensures Contains(Insert(r, v)) && Unwrap(Insert(r, v)) == Returned(v)
  {
  }

  /** `getOrInsert(v)` changes nothing on an Ok and returns its payload; on an Err it
      stores `{ok: v}` and returns `v`, but `containsErr()` still holds afterwards. */
  lemma GetOrInsertLaws<T, E>(r: Result<T, E>, v: T)
    requires Valid(r)
    ensures Contains(r) ==> GetOrInsert(r, v) == (r, r.stored.ok)
    ensures ContainsErr(r) ==> GetOrInsert(r, v).1 == v
    ensures ContainsErr(r) ==> GetOrInsert(r, v).0.stored == Ok(v) && ContainsErr(GetOrInsert(r, v).0)
    ensures Unwrap(GetOrInsert(r, v).0) == Returned(GetOrInsert(r, v).1)
    ensures Valid(GetOrInsert(r, v).0)
  {
  }

  /** `map` transforms an Ok payload and passes an Err through; the functor laws. The
      identity law needs a tagged value, since `map` rebuilds its Ok through `Ok(..)`. */
  lemma MapLaws<T, E, U, W>(r: Result<T, E>, x: T, e: E, f: T -> U, g: U -> W)
    ensures Map(MakeOk<T, E>(x), f) == MakeOk(f(x))
    ensures Map(MakeErr<T, E>(e), f) == MakeErr(e)
    ensures Tagged(r) ==> Map(r, t => t) == r
    ensures Map(Map(r, f), g) == Map(r, t => g(f(t)))
    ensures Tagged(Map(r, f))
  {
    match r.stored
    case Ok(t) =>
      assert Map(r, (t: T) => t) == MakeOk(t);
    case Err(d) =>
      assert Map(r, (t: T) => t) == MakeErr(d);
  }

  /** `map` over Ok values is `andThen` with `Ok` after the function. */
  lemma MapIsAndThenOk<T, E>(r: Result<T, E>, f: T -> T)
    requires Valid(r)
    ensures Map(r, f) == AndThen(r, t => MakeOk(f(t)))
  {
    match r.stored
    case Ok(t) =>
    case Err(d) =>
      assert AndThen(r, t => MakeOk(f(t))) == r;
  }

  /** `mapErr` is the mirror of `map`. */
  lemma MapErrLaws<T, E, F, G>(r: Result<T, E>, x: T, e: E, f: E -> F, g: F -> G)
    ensures MapErr(MakeOk<T, E>(x), f) == MakeOk(x)
    ensures MapErr(MakeErr<T, E>(e), f) == MakeErr(f(e))
    ensures Tagged(r) ==> MapErr(r, d => d) == r
    ensures MapErr(MapErr(r, f), g) == MapErr(r, d => g(f(d)))
    ensures Tagged(MapErr(r, f))
  {
    match r.stored
    case Ok(t) =>
      assert MapErr(r, (d: E) => d) == MakeOk(t);
    case Err(d) =>
      assert MapErr(r, (d: E) => d) == MakeErr(d);
  }

  /** `Err("boom").mapErr(s => s.length)` is `Err(4)`, and an Ok passes through. */
  lemma MapErrLengthExample()
    ensures MapErr(MakeErr<int, string>("boom"), (s: string) => |s|) == MakeErr(4)
    ensures MapErr(MakeOk<int, string>(5), (s: string) => |s|) == MakeOk(5)
  {
  }

  /** `mapOr` and `mapOrElse` on the two constructors. */
  lemma MapOrOnConstructors<T, E, U>(x: T, e: E, def: U, d: E -> U, f: T -> U)
    ensures MapOr(MakeOk<T, E>(x), def, f) == f(x) && MapOr(MakeErr<T, E>(e), def, f) == def
    ensures MapOrElse(MakeOk<T, E>(x), d, f) == f(x) && MapOrElse(MakeErr<T, E>(e), d, f) == d(e)
  {
  }

  /** Every operation that yields a Result keeps it valid. */
  lemma ValidPreserved<T, E>(r: Result<T, E>, optb: Result<T, E>, v: T, f: T -> Result<T, E>, h: E -> Result<T, E>)
    requires Valid(r) && Valid(optb)
    requires forall t :: Valid(f(t))
    requires forall d :: Valid(h(d))
    ensures Valid(And(r, optb)) && Valid(AndThen(r, f)) && Valid(OrElse(r, h))
    ensures Valid(Exceptions.Or(r, optb)) && Valid(Insert(r, v))
    ensures Or(r, optb).Unwrapped? ==> Or(r, optb).payload.Ok?
  {
  }

}
